=== FILE: README.md ===
# Marmalade shop: cart and checkout model

A Dafny model of the cart-and-checkout core of a small Django storefront. The
model covers:

- the cart mutations: add-or-increment, change a quantity, remove a line;
- the re-key of an anonymous session's cart to the user at login and
  registration;
- checkout: the order, its item snapshots, the stock decrements and the
  cart clear, all in one transaction;
- two pure product helpers: the discounted price and the zero-padded display
  id;
- the id-or-full-text routing of the catalog search.

The database is an immutable `Shop.Store` value. It holds the product map, the
cart lines in the order the table yields them, the orders, the order items, and
two counters that stand for the primary-key sequences. Every operation is a
pure function of the store. A failing operation returns `Results.Failure`,
which carries no store, so the caller's store stays as it was. That is how the
model expresses the rollback of `transaction.atomic()` and the "raise and
change nothing" behaviour of `Model.objects.get`.

Money is integer cents. A discount is an integer number of hundredths of a
percent (15% is 1500). The discounted price rounds the exact value half-even
to whole cents, which is what `round(Decimal, 2)` does.

Modules follow the source files:

| module | file | models |
|---|---|---|
| `Results` | results.dfy | `Option` and `Result` |
| `Goods` | goods.dfy | goods/models.py: `Product`, `discounted_price`, `display_id`, decimal text |
| `Search` | search.dfy | goods/utils.py: the routing branch of `q_search` |
| `Shop` | shop.dfy | the tables and the integrity the database keeps (`Valid`) |
| `Carts` | carts.dfy | carts/views.py: `CartAddView`, `CartChangeView`, `CartRemoveView` |
| `Users` | users.dfy | users/views.py: the re-key inside `login` and `registration` |
| `Orders` | orders.dfy | orders/views.py: `CreateOrderView.post` and `create_order` |

Behaviours of the code that the model keeps as they are:

- Session merge does no reconciliation. The code only sets `user` on the
  session's lines (users/views.py:26-28), even when the user already holds a
  line for the same product. `Users.LoginLeavesDuplicateLines` shows the
  result: two lines for one (user, product), after which a further add of that
  product fails.
- Change does no bounds check in the view (carts/views.py:63-65). The model
  takes line quantities as `int` and lets them be zero or negative; see
  `Carts.Change` under "## Left out" for what this assumes about the cart table.
- The quantity of a new line is the cart model's column default, which is not
  part of this model, so `Carts.Add` takes the initial quantity as a parameter.
- The views never check for a second line per (owner, product). The model
  assumes the cart table has no uniqueness constraint either (see
  `Carts.FindMatch` under "## Left out"), so such lines can exist; `Carts.Add`
  then fails with `MultipleLinesMatch`, as `get_or_create` raises.

## Model

| member | source | states |
|---|---|---|
| Goods.RoundHalfEven | goods/models.py:91 | the result is within half a unit of n/10000, and at an exact half it is even: Decimal's ROUND_HALF_EVEN |
| Goods.RoundHalfEvenUnique | goods/models.py:91 | any integer that is nearest to n/10000, with ties going to the even one, is the rounded result, so the rounding is fully determined |
| Goods.DiscountedPrice | goods/models.py:83-92 | a zero discount returns the list price unchanged |
| Goods.DiscountedPriceIsNearest | goods/models.py:91 | with a non-zero discount, the result is the whole number of cents nearest to price − price·discount/100, and the even one on a tie |
| Goods.DiscountedPriceBounds | goods/models.py:91 | for price ≥ 0 and a discount of 0–100%, the result lies between 0 and the price, and a 100% discount gives 0 |
| Goods.DiscountedPriceExample | goods/models.py:91 | 100.00 at 15% costs 85.00 |
| Goods.DiscountedPriceIgnoresStock | goods/models.py:83-92 | the discounted price does not depend on the stock field |
| Goods.Digits | goods/models.py:81 | the decimal spelling of an id is non-empty, all digits and has no leading zero |
| Goods.ParseDecimal | goods/utils.py:25 | `int()` of a string of k digits is below 10^k |
| Goods.ParseDigits | goods/utils.py:25 | parsing the decimal spelling of n gives n back |
| Goods.DigitsLength | goods/models.py:81 | for the k digits of the spelling of n, n < 10^k, and 10^(k−1) ≤ n when k ≥ 2 (0 is spelled "0") |
| Goods.ParseIgnoresLeadingZeros | goods/utils.py:25 | zeros in front of a digit string do not change its parsed value |
| Goods.DisplayId | goods/models.py:74-81 | `f'{id:05}'` is all digits, at least five characters long, and parses back to the id |
| Goods.DisplayIdWidth | goods/models.py:81 | the display id is exactly five characters iff id < 100000, and from 100000 on it is the plain decimal id |
| Search.RouteQuery | goods/utils.py:23-25 | a query goes to the id lookup iff it is 1–5 ASCII digits, and the id looked up is `int(query)`, below 100000; otherwise the query goes unchanged to the full-text branch |
| Search.LongNumberIsFullText | goods/utils.py:23 | an all-digit query of six or more characters takes the full-text branch |
| Search.NonNumericIsFullText | goods/utils.py:23 | the empty query, and any query with a non-digit, takes the full-text branch |
| Search.LeadingZerosIgnored | goods/utils.py:23-25 | padding a digit string with zeros, up to five characters, looks up the same id |
| Search.LeadingZerosExample | goods/utils.py:25 | "00042" looks up id 42 |
| Search.DisplayIdRoundTrip | goods/utils.py:23-25 | searching a product's display id looks up exactly that id iff the id is below 100000; larger ids fall to full text |
| Carts.FindMatch | carts/views.py:24-32 | classifies the `get_or_create` filter as no matching line, exactly one (at the index returned), or two or more |
| Carts.NewLine | carts/views.py:24-32 | a created line is keyed by the user for a signed-in request and by the session key for an anonymous one, and the same filter finds it again |
| Carts.Add | carts/views.py:19-35 | an unknown product fails; two or more matching lines fail; one matching line gets +1 and no line is added; no matching line appends one new line with a fresh id and the default quantity; products, orders and items are unchanged |
| Carts.AddPreservesValid | carts/views.py:19-35 | a successful add keeps ids distinct and fresh, product references resolving, and stock non-negative |
| Carts.AddLeavesOneLine | carts/views.py:24-35 | after a successful add exactly one line matches (owner, product), and it is the reported line |
| Carts.AddTwice | carts/views.py:24-35 | two adds of a new product leave one line with the default quantity + 1 |
| Carts.KeylessAnonymousAddReachesUserLine | carts/views.py:31-35 | an anonymous request with no session key matches lines whose session key is NULL, so it can increment a signed-in user's line |
| Carts.FindLine | carts/views.py:63 | finds the position of the line with the given primary key, or reports that there is none |
| Carts.Change | carts/views.py:60-77 | a missing id fails; otherwise only the line with that id, whoever owns it, gets the submitted quantity, which is returned; nothing else changes |
| Carts.ChangeBack | carts/views.py:60-65 | changing a line back to its previous quantity restores the store |
| Carts.ChangePreservesValid | carts/views.py:60-65 | a change keeps the store's integrity |
| Carts.Remove | carts/views.py:91-107 | a missing id fails; otherwise exactly that line is deleted, the others keep their order, and the deleted line's quantity is returned |
| Carts.RemoveDeletesLine | carts/views.py:93-95 | after a removal no line has that id, and the cart is one line shorter |
| Carts.RemovePreservesValid | carts/views.py:93-95 | a removal keeps the store's integrity |
| Carts.RemoveUndoesAdd | carts/views.py:24-35 | removing the line an add just created restores the cart and reports the default quantity |
| Users.ReKey | users/views.py:27-28 | every line whose session key is the given key gets the user; ids, session keys, products and quantities stay, and no line is added or dropped |
| Users.Login | users/views.py:11-28 | failed authentication changes nothing; a successful one gives the authenticated user exactly the lines carrying a non-empty pre-login key, in place, with every other line and table unchanged and no line added, dropped or merged |
| Users.Register | users/views.py:43-55 | the new user gets exactly the lines carrying the non-empty key read before `auth.login`, in place; with an absent or empty key nothing changes, and no other table changes |
| Users.ReKeyIdempotent | users/views.py:27-28 | re-keying twice with the same key and user equals re-keying once |
| Users.LoginUserCart | users/views.py:26-28 | after the re-key, a line belongs to the user iff it did before or it carried the session key |
| Users.LoginPreservesValid | users/views.py:11-28 | login keeps the store's integrity |
| Users.LoginLeavesDuplicateLines | users/views.py:27-28 | no reconciliation: a user line and a session line for one product become two user lines, and a further add of that product fails |
| Orders.UserLines | orders/views.py:38 | a line is in the user's cart iff it is in the table and owned by the user |
| Orders.OtherLines | orders/views.py:42 | a line survives the delete iff it is in the table and not owned by the user |
| Orders.LinesPartition | orders/views.py:38-42 | the user's lines and the surviving lines together are exactly the table, as multisets |
| Orders.NoUserLinesLeft | orders/views.py:42 | after the delete the user owns no line |
| Orders.ProcessLines | orders/views.py:58-77 | a completed loop writes one snapshot per line, in order, with the product's name, discounted price and the line quantity; it lowers each product's stock by that product's total over the lines; it changes no other field; the only error it raises is insufficient stock |
| Orders.ProcessLinesOutcome | orders/views.py:58-77 | the loop completes iff every line fits the stock left by the earlier lines; otherwise it fails on the first line that does not fit, naming the product and the stock it saw |
| Orders.StockCoversLines | orders/views.py:58-77 | with non-negative quantities the loop completes iff each product's total over the lines is at most its stock, in any line order |
| Orders.SameProductLinesShareStock | orders/views.py:58-77 | two lines for one product both pass only if their sum is at most the stock, for any quantities; with non-negative quantities that is also enough |
| Orders.PlaceOrder | orders/views.py:32-78 | an empty cart fails with `EmptyCart` and no other case does; on success one new order owned by the user holds the validated contact fields, gets the next id, and has exactly one snapshot per cart line; stock drops by each product's total; the user's lines are deleted and the other lines are kept |
| Orders.PlaceOrderOutcome | orders/views.py:36-67 | all or nothing: a non-empty checkout succeeds iff every line fits the stock left by the earlier lines; otherwise it fails at the first shortfall and leaves the store unchanged |
| Orders.PlaceOrderSucceedsIffStockCovers | orders/views.py:58-77 | with non-negative quantities, checkout succeeds iff the cart is non-empty and each product's total is at most its stock |
| Orders.PlaceOrderKeepsStockNonNegative | orders/views.py:64-77 | stock never becomes negative after a successful checkout |
| Orders.PlaceOrderPreservesValid | orders/views.py:36-77 | a successful checkout keeps the store's integrity: fresh order id, items pointing at orders, cart ids distinct, stock non-negative |
| Orders.PlaceOrderClearsCart | orders/views.py:38-42 | after success the user has no lines left, and the surviving lines plus the user's lines are exactly the old table |
| Orders.PlaceOrderLeavesOtherStock | orders/views.py:58-77 | a product that none of the user's lines asks for keeps its stock |

## Left out

- Rendering, `JsonResponse`, `messages`, redirects and the error-message text.
  An insufficient-stock error keeps only the product name and the stock it saw.
- Form validation. The login and registration forms and the order form are not
  part of this model. A checkout takes the contact details as already
  validated. Login takes the result of `auth.authenticate`, which is absent
  when the form or the credentials are rejected. Registration is modelled from
  the point where the user exists.
- Authentication, sessions and the ORM. The user id and the pre-login session
  key are inputs. Session-key rotation by `auth.login` is represented only by
  using the key read before it.
- Concurrency, row locking and isolation. `transaction.atomic()` is modelled
  as all-or-nothing on one sequential store.
- Primary-key sequences. They are modelled as counters, and a failed checkout
  returns them unchanged. Postgres sequences would advance, but id values are
  opaque here.
- The order's creation timestamp and the clock. The order status is not
  modelled either.
- The full-text branch of `q_search`. It is an opaque `FullText(query)`
  outcome; ranking and highlighting use Postgres features.
- Catalog listing, filtering and pagination (goods/views.py), the URL tables,
  the static pages, and the `profile`, `logout` and `users_cart` views.
- Non-ASCII digits accepted by `str.isdigit`. Only ASCII digits are digits here.
- Decimal context limits and the `max_digits` column limits. The arithmetic is
  exact on unbounded integers; for values that fit the 7-digit columns, the
  28-digit Decimal context never rounds before the final `round`.
- Non-numeric quantities submitted to the change view. `int()` would raise on
  them; the model takes the quantity as an integer.
- Carts.NewLine: assumes that the `session_key` column defaults to NULL, so a
  line created for a signed-in user has no session key. The cart model
  (carts/models.py) is not part of this model; were the default the empty
  string, a keyless anonymous add, which looks for NULL, would never reach a
  user's line, and `Carts.KeylessAnonymousAddReachesUserLine` would not apply
  to lines created that way.
- Carts.Change: assumes that the cart quantity column accepts any integer. If
  it were a positive-integer column, as `Products.quantity` is
  (goods/models.py:57), the database would refuse a negative change at
  `cart.save()`, and a checkout writing a negative order-item quantity
  (orders/views.py:69-75) would fail there too; the model lets both succeed.
- Carts.FindMatch: assumes that the cart table has no uniqueness constraint on
  (user, product) or (session_key, product). With one, the re-key in
  users/views.py:27-28 could raise instead of producing the duplicate lines
  that `Users.LoginLeavesDuplicateLines` describes.
- Orders.ProcessLines: assumes that `filter(user=user)` yields the cart lines
  in the store's order (new lines appended, updated lines kept in place). The
  cart model's ordering is not part of this model; that order decides which
  shortfall `Orders.ProcessLinesOutcome` reports first and the order of the
  order items.
- Carts.Add: `get_or_create` is not atomic against concurrent adds. The model
  only covers the sequential behaviour.

=== FILE: carts.dfy ===
/** The state effects of the three cart views (carts/views.py): add-or-increment,
    overwrite a line's quantity, delete a line. Rendering and JSON are left out. */
module Carts {
  import opened Results
  import opened Goods
  import opened Shop

  /** Who sends a cart request: a signed-in user, or an anonymous visitor known by
      the session key, which is absent until the session has been saved. */
  datatype Requester = SignedIn(user: UserId) | Anonymous(sessionKey: Option<SessionKey>)

  datatype CartError = ProductNotFound | MultipleLinesMatch | LineNotFound

  /** The `get_or_create` lookup of `CartAddView.post`: a signed-in request filters on
      user and product only, an anonymous one on session key and product only. A
      filter on `session_key=None` means "session key IS NULL", hence the plain
      equality of optional keys. */
  predicate Matches(l: CartLine, who: Requester, product: ProductId)
  {
    && l.product == product
    && match who
       case SignedIn(u) => l.user == Some(u)
       case Anonymous(k) => l.sessionKey == k
  }

  predicate NoLineMatches(carts: seq<CartLine>, who: Requester, product: ProductId)
  {
    forall i :: 0 <= i < |carts| ==> !Matches(carts[i], who, product)
  }

  predicate OnlyLineMatching(carts: seq<CartLine>, who: Requester, product: ProductId, i: nat)
  {
    && i < |carts|
    && Matches(carts[i], who, product)
    && forall j :: 0 <= j < |carts| && j != i ==> !Matches(carts[j], who, product)
  }

  predicate TwoLinesMatch(carts: seq<CartLine>, who: Requester, product: ProductId)
  {
    exists i, j :: 0 <= i < j < |carts| && Matches(carts[i], who, product) && Matches(carts[j], who, product)
  }

  datatype LineMatch = NoMatch | OneMatch(index: nat) | ManyMatches

  /** How many rows the `get_or_create` filter finds: none, exactly one, or several. */
  function FindMatch(carts: seq<CartLine>, who: Requester, product: ProductId): (r: LineMatch)
    ensures r.NoMatch? <==> NoLineMatches(carts, who, product)
    ensures r.OneMatch? ==> OnlyLineMatching(carts, who, product, r.index)
    ensures r.ManyMatches? <==> TwoLinesMatch(carts, who, product)
  {
    if carts == [] then NoMatch
    else
      var rest := FindMatch(carts[1..], who, product);
      var here := Matches(carts[0], who, product);
      match rest
      case NoMatch => if here then OneMatch(0) else NoMatch
      case OneMatch(i) =>
        assert Matches(carts[i + 1], who, product);
        if here then ManyMatches else OneMatch(i + 1)
      case ManyMatches =>
        var i, j :| 0 <= i < j < |carts| - 1 && Matches(carts[1..][i], who, product) && Matches(carts[1..][j], who, product);
        assert Matches(carts[i + 1], who, product) && Matches(carts[j + 1], who, product);
        ManyMatches
  }

  /** The line `get_or_create` inserts: owned by the user, or by the session key. */
  function NewLine(id: LineId, who: Requester, product: ProductId, quantity: int): (l: CartLine)
    ensures l.id == id && l.product == product && l.quantity == quantity
    ensures Matches(l, who, product)
    ensures who.SignedIn? ==> l.sessionKey == None
    ensures who.Anonymous? ==> l.user == None
  {
    match who
    case SignedIn(u) => CartLine(id, Some(u), None, product, quantity)
    case Anonymous(k) => CartLine(id, None, k, product, quantity)
  }

  function Increment(l: CartLine): CartLine
  {
    l.(quantity := l.quantity + 1)
  }

  /** The store after an add, the id of the line added to, and whether it was new. */
  datatype Added = Added(store: Store, line: LineId, created: bool)

  /** `CartAddView.post`. The product must exist. If one line matches the requester
      and product its quantity goes up by one; if none does, a line with the model's
      default quantity (`initialQuantity`) is created; if several do, `get_or_create`
      raises and nothing changes. The stock is not consulted. */
  function Add(s: Store, who: Requester, product: ProductId, initialQuantity: int): (r: Result<Added, CartError>)
    ensures product !in s.products ==> r == Failure(ProductNotFound)
    ensures product in s.products && TwoLinesMatch(s.carts, who, product) ==> r == Failure(MultipleLinesMatch)
    ensures r.Success? <==> product in s.products && !TwoLinesMatch(s.carts, who, product)
    ensures r.Success? ==> (r.value.created <==> NoLineMatches(s.carts, who, product))
    ensures r.Success? && r.value.created ==>
      && r.value.line == s.nextLineId
      && r.value.store == s.(carts := s.carts + [NewLine(s.nextLineId, who, product, initialQuantity)],
                             nextLineId := s.nextLineId + 1)
    ensures r.Success? && !r.value.created ==>
      exists i: nat :: OnlyLineMatching(s.carts, who, product, i)
        && r.value.line == s.carts[i].id
        && r.value.store == s.(carts := s.carts[i := Increment(s.carts[i])])
  {
    if product !in s.products then Failure(ProductNotFound)
    else
      match FindMatch(s.carts, who, product)
      case ManyMatches => Failure(MultipleLinesMatch)
      case OneMatch(i) =>
        Success(Added(s.(carts := s.carts[i := Increment(s.carts[i])]), s.carts[i].id, false))
      case NoMatch =>
        var line := NewLine(s.nextLineId, who, product, initialQuantity);
        Success(Added(s.(carts := s.carts + [line], nextLineId := s.nextLineId + 1), s.nextLineId, true))
  }

  /** A successful add keeps the database's integrity. */
  lemma AddPreservesValid(s: Store, who: Requester, product: ProductId, initialQuantity: int)
    requires Valid(s)
    requires Add(s, who, product, initialQuantity).Success?
    ensures Valid(Add(s, who, product, initialQuantity).value.store)
  {
  }

  /** One line per add: after a successful add exactly one line matches the requester
      and product, and it holds the line the add reports. */
  lemma {:induction false} AddLeavesOneLine(s: Store, who: Requester, product: ProductId, initialQuantity: int)
    requires Valid(s)
    requires Add(s, who, product, initialQuantity).Success?
    ensures var a := Add(s, who, product, initialQuantity).value;
      exists i: nat :: OnlyLineMatching(a.store.carts, who, product, i) && a.store.carts[i].id == a.line
  {
    var a := Add(s, who, product, initialQuantity).value;
    var c := a.store.carts;
    if a.created {
      var k := |s.carts|;
      assert c[k] == NewLine(s.nextLineId, who, product, initialQuantity);
      forall j | 0 <= j < |c| && j != k ensures !Matches(c[j], who, product) {
        assert c[j] == s.carts[j];
      }
      assert OnlyLineMatching(c, who, product, k);
    } else {
      var i: nat :| OnlyLineMatching(s.carts, who, product, i) && a.line == s.carts[i].id
        && a.store == s.(carts := s.carts[i := Increment(s.carts[i])]);
      forall j | 0 <= j < |c| && j != i ensures !Matches(c[j], who, product) {
        assert c[j] == s.carts[j];
      }
      assert OnlyLineMatching(c, who, product, i);
    }
  }

  /** Adding the same product twice, starting without a line for it, leaves one line
      whose quantity is the default plus one. */
  lemma AddTwice(s: Store, who: Requester, product: ProductId, initialQuantity: int)
    requires Valid(s)
    requires product in s.products && NoLineMatches(s.carts, who, product)
    ensures var first := Add(s, who, product, initialQuantity);
      && first.Success? && first.value.created
      && var second := Add(first.value.store, who, product, initialQuantity);
      && second.Success? && !second.value.created
      && second.value.line == first.value.line
      && second.value.store.carts
         == s.carts + [NewLine(s.nextLineId, who, product, initialQuantity + 1)]
  {
    var s1 := Add(s, who, product, initialQuantity).value.store;
    var k := |s.carts|;
    assert OnlyLineMatching(s1.carts, who, product, k) by {
      forall j | 0 <= j < |s1.carts| && j != k ensures !Matches(s1.carts[j], who, product) {
        assert s1.carts[j] == s.carts[j];
      }
    }
    assert !TwoLinesMatch(s1.carts, who, product);
    var second := Add(s1, who, product, initialQuantity);
    var i: nat :| OnlyLineMatching(s1.carts, who, product, i) && second.value.line == s1.carts[i].id
      && second.value.store == s1.(carts := s1.carts[i := Increment(s1.carts[i])]);
    assert i == k;
  }

  /** An anonymous visitor whose session has no key yet is matched against lines with
      no session key, which include lines added by signed-in users: adding a product
      for which exactly one such line exists increments that user's line. */
  lemma KeylessAnonymousAddReachesUserLine(s: Store, product: ProductId, initialQuantity: int, i: nat)
    requires product in s.products
    requires i < |s.carts| && s.carts[i].product == product && s.carts[i].sessionKey == None
    requires forall j :: 0 <= j < |s.carts| && j != i && s.carts[j].product == product ==> s.carts[j].sessionKey != None
    ensures var r := Add(s, Anonymous(None), product, initialQuantity);
      && r.Success? && !r.value.created
      && r.value.store.carts == s.carts[i := Increment(s.carts[i])]
  {
    assert OnlyLineMatching(s.carts, Anonymous(None), product, i);
  }

  // ---------------------------------------------------------------------------
  // Lookup by line id (`Cart.objects.get(id=cart_id)`)

  predicate HasLine(carts: seq<CartLine>, id: LineId)
  {
    exists i :: 0 <= i < |carts| && carts[i].id == id
  }

  /** The position of the line with the given primary key, if there is one. */
  function FindLine(carts: seq<CartLine>, id: LineId): (r: Option<nat>)
    ensures r.None? <==> !HasLine(carts, id)
    ensures r.Some? ==> r.value < |carts| && carts[r.value].id == id
  {
    if carts == [] then None
    else if carts[0].id == id then Some(0)
    else
      match FindLine(carts[1..], id)
      case None =>
        assert forall i :: 1 <= i < |carts| ==> carts[i] == carts[1..][i - 1];
        None
      case Some(i) => Some(i + 1)
  }

  /** The store after a change, and the quantity the view reports back. */
  datatype Changed = Changed(store: Store, quantity: int)

  /** `CartChangeView.post`: the line with the given id, whoever owns it, gets the
      submitted quantity, with no bounds check; nothing else changes. A missing id
      raises and changes nothing. */
  function Change(s: Store, id: LineId, quantity: int): (r: Result<Changed, CartError>)
    requires LineIdsDistinct(s.carts)
    ensures r.Failure? <==> !HasLine(s.carts, id)
    ensures r.Failure? ==> r.error == LineNotFound
    ensures r.Success? ==>
      && r.value.quantity == quantity
      && r.value.store == s.(carts := r.value.store.carts)
      && |r.value.store.carts| == |s.carts|
      && forall i :: 0 <= i < |s.carts| ==>
           r.value.store.carts[i] == if s.carts[i].id == id then s.carts[i].(quantity := quantity) else s.carts[i]
  {
    match FindLine(s.carts, id)
    case None => Failure(LineNotFound)
    case Some(i) => Success(Changed(s.(carts := s.carts[i := s.carts[i].(quantity := quantity)]), quantity))
  }

  /** Changing a line back to the quantity it had restores the store. */
  lemma ChangeBack(s: Store, id: LineId, quantity: int, i: nat)
    requires LineIdsDistinct(s.carts)
    requires i < |s.carts| && s.carts[i].id == id
    ensures var s1 := Change(s, id, quantity).value.store;
      LineIdsDistinct(s1.carts) && Change(s1, id, s.carts[i].quantity).value.store == s
  {
    var s1 := Change(s, id, quantity).value.store;
    var s2 := Change(s1, id, s.carts[i].quantity).value.store;
    assert s2.carts == s.carts;
  }

  lemma ChangePreservesValid(s: Store, id: LineId, quantity: int)
    requires Valid(s)
    requires Change(s, id, quantity).Success?
    ensures Valid(Change(s, id, quantity).value.store)
  {
  }

  /** The store after a removal, and the quantity the removed line held. */
  datatype Removed = Removed(store: Store, quantity: int)

  /** `CartRemoveView.post`: the line with the given id, whoever owns it, is deleted
      and its quantity reported; the other lines keep their order. A missing id
      raises and changes nothing. */
  function Remove(s: Store, id: LineId): (r: Result<Removed, CartError>)
    requires LineIdsDistinct(s.carts)
    ensures r.Failure? <==> !HasLine(s.carts, id)
    ensures r.Failure? ==> r.error == LineNotFound
    ensures r.Success? ==>
      exists i :: (0 <= i < |s.carts| && s.carts[i].id == id
        && r.value.quantity == s.carts[i].quantity
        && r.value.store == s.(carts := s.carts[..i] + s.carts[i + 1..]))
  {
    match FindLine(s.carts, id)
    case None => Failure(LineNotFound)
    case Some(i) => Success(Removed(s.(carts := s.carts[..i] + s.carts[i + 1..]), s.carts[i].quantity))
  }

  /** After a removal no line has the removed id. */
  lemma RemoveDeletesLine(s: Store, id: LineId)
    requires LineIdsDistinct(s.carts)
    requires Remove(s, id).Success?
    ensures !HasLine(Remove(s, id).value.store.carts, id)
    ensures |Remove(s, id).value.store.carts| == |s.carts| - 1
  {
    var i :| 0 <= i < |s.carts| && s.carts[i].id == id
      && Remove(s, id).value.store == s.(carts := s.carts[..i] + s.carts[i + 1..]);
    var c := s.carts[..i] + s.carts[i + 1..];
    forall j | 0 <= j < |c| ensures c[j].id != id {
      if j < i { assert c[j] == s.carts[j]; } else { assert c[j] == s.carts[j + 1]; }
    }
  }

  /** Deleting the `i`-th row shifts the later rows down by one. */
  lemma DeleteAt(carts: seq<CartLine>, i: nat)
    requires i < |carts|
    ensures var c := carts[..i] + carts[i + 1..];
      && |c| == |carts| - 1
      && (forall j :: 0 <= j < i ==> c[j] == carts[j])
      && (forall j :: i <= j < |c| ==> c[j] == carts[j + 1])
  {
  }

  lemma RemovePreservesValid(s: Store, id: LineId)
    requires Valid(s)
    requires Remove(s, id).Success?
    ensures Valid(Remove(s, id).value.store)
  {
    var i :| 0 <= i < |s.carts| && s.carts[i].id == id
      && Remove(s, id).value.store == s.(carts := s.carts[..i] + s.carts[i + 1..]);
    var c := s.carts[..i] + s.carts[i + 1..];
    DeleteAt(s.carts, i);
    forall a, b | 0 <= a < b < |c| ensures c[a].id != c[b].id {
      var a' := if a < i then a else a + 1;
      var b' := if b < i then b else b + 1;
      assert c[a] == s.carts[a'] && c[b] == s.carts[b'];
    }
    forall j | 0 <= j < |c| ensures c[j].id < s.nextLineId && c[j].product in s.products {
      var j' := if j < i then j else j + 1;
      assert c[j] == s.carts[j'];
    }
  }

  /** An add that creates a line appends it with the fresh id and keeps the ids
      distinct. */
  lemma AddAppendsFreshLine(s: Store, who: Requester, product: ProductId, initialQuantity: int)
    requires Valid(s)
    requires product in s.products && NoLineMatches(s.carts, who, product)
    ensures var a := Add(s, who, product, initialQuantity).value;
      && a.created && a.line == s.nextLineId
      && a.store == s.(carts := s.carts + [NewLine(s.nextLineId, who, product, initialQuantity)],
                       nextLineId := s.nextLineId + 1)
      && LineIdsDistinct(a.store.carts)
  {
    AddPreservesValid(s, who, product, initialQuantity);
  }

  /** Removing the line an add has just created gives back the cart as it was, and
      reports the quantity the add gave it. */
  lemma RemoveUndoesAdd(s: Store, who: Requester, product: ProductId, initialQuantity: int)
    requires Valid(s)
    requires product in s.products && NoLineMatches(s.carts, who, product)
    ensures var a := Add(s, who, product, initialQuantity).value;
      && LineIdsDistinct(a.store.carts)
      && var r := Remove(a.store, a.line);
      && r.Success?
      && r.value.quantity == initialQuantity
      && r.value.store == s.(nextLineId := s.nextLineId + 1)
  {
    AddAppendsFreshLine(s, who, product, initialQuantity);
    var a := Add(s, who, product, initialQuantity).value;
    var c := a.store.carts;
    var k := |s.carts|;
    var r := Remove(a.store, a.line);
    var i :| 0 <= i < |c| && c[i].id == a.line
      && r.value.quantity == c[i].quantity
      && r.value.store == a.store.(carts := c[..i] + c[i + 1..]);
    assert c[k].id == a.line;
    assert i == k;
    assert c[..k] == s.carts && c[k + 1..] == [];
  }
}

=== FILE: goods.dfy ===
/** The product record and its two pure helpers, `discounted_price` and
    `display_id` (goods/models.py). */
module Goods {

  type ProductId = nat

  /** A catalog product. Money is kept in integer cents (the price column has two
      decimal places), the discount in hundredths of a percent (its column also has
      two decimal places) and `quantity` is the stock on hand. */
  datatype Product = Product(name: string, price: int, discount: int, quantity: int)

  /** Number of hundredths of a percent in a whole: a discount of 100% is 10000. */
  const Whole := 10000

  function Dist(a: int, b: int): nat
  {
    if a >= b then a - b else b - a
  }

  /** `n / Whole` rounded to an integer, halves going to the even neighbour: the
      default rounding of Python's Decimal, which `round(x, 2)` applies when `x` is
      a price in units and `n` the same price in ten-thousandths of a cent. */
  function RoundHalfEven(n: int): (r: int)
    ensures 2 * Dist(r * Whole, n) <= Whole
    ensures 2 * Dist(r * Whole, n) == Whole ==> r % 2 == 0
  {
    var q := n / Whole;
    var rem := n % Whole;
    if 2 * rem < Whole then q
    else if 2 * rem > Whole then q + 1
    else if q % 2 == 0 then q
    else q + 1
  }

  /** Nearest-with-ties-to-even determines the rounded value: any integer meeting the
      two conditions of `RoundHalfEven`'s contract is its result. */
  lemma RoundHalfEvenUnique(n: int, r': int)
    requires 2 * Dist(r' * Whole, n) <= Whole
    requires 2 * Dist(r' * Whole, n) == Whole ==> r' % 2 == 0
    ensures r' == RoundHalfEven(n)
  {
    var r := RoundHalfEven(n);
    assert Dist(r * Whole, r' * Whole) <= Whole;
  }

  /** The exact discounted price, scaled by `Whole`: `price - price * discount / 100`
      in cents times 10000. */
  function ExactScaled(p: Product): int
  {
    p.price * (Whole - p.discount)
  }

  /** `Products.discounted_price`: the list price when the discount is zero, otherwise
      the exact discounted price rounded half-even to whole cents. */
  function DiscountedPrice(p: Product): (r: int)
    ensures p.discount == 0 ==> r == p.price
  {
    if p.discount == 0 then p.price
    else RoundHalfEven(p.price * Whole - p.price * p.discount)
  }

  /** A non-zero discount gives the whole number of cents nearest to the exact
      discounted price, and the even one of the two when the exact price lies
      half-way between them. */
  lemma DiscountedPriceIsNearest(p: Product)
    requires p.discount != 0
    ensures 2 * Dist(DiscountedPrice(p) * Whole, ExactScaled(p)) <= Whole
    ensures 2 * Dist(DiscountedPrice(p) * Whole, ExactScaled(p)) == Whole ==> DiscountedPrice(p) % 2 == 0
  {
    assert ExactScaled(p) == p.price * Whole - p.price * p.discount;
  }

  lemma ScaledWithin(a: int, e: int)
    requires a >= 0 && 0 <= e <= Whole
    ensures 0 <= a * e <= a * Whole
  {
    assert a * Whole - a * e == a * (Whole - e);
  }

  /** The discounted price depends on the price and the discount only, not on the
      stock, so decrementing the stock does not change it. */
  lemma DiscountedPriceIgnoresStock(p: Product, quantity: int)
    ensures DiscountedPrice(p.(quantity := quantity)) == DiscountedPrice(p)
  {
  }

  /** With a discount between 0% and 100% a non-negative price never rises and never
      goes below zero; a 100% discount makes the product free. */
  lemma DiscountedPriceBounds(p: Product)
    requires p.price >= 0
    requires 0 <= p.discount <= Whole
    ensures 0 <= DiscountedPrice(p) <= p.price
    ensures p.discount == Whole ==> DiscountedPrice(p) == 0
  {
    var r := DiscountedPrice(p);
    if p.discount != 0 {
      DiscountedPriceIsNearest(p);
      var x := ExactScaled(p);
      ScaledWithin(p.price, Whole - p.discount);
      assert 0 <= x <= p.price * Whole;
      assert r * Whole >= x - Whole / 2;
      assert r * Whole <= x + Whole / 2;
    }
  }

  /** A price of 100.00 with a 15% discount costs 85.00. */
  lemma DiscountedPriceExample()
    ensures DiscountedPrice(Product("marmalade", 10000, 1500, 0)) == 8500
  {
    var p := Product("marmalade", 10000, 1500, 0);
    DiscountedPriceIsNearest(p);
    RoundHalfEvenUnique(ExactScaled(p), 8500);
  }

  // ---------------------------------------------------------------------------
  // Decimal text

  predicate IsDigit(c: char)
  {
    '0' <= c <= '9'
  }

  predicate AllDigits(s: string)
  {
    forall i :: 0 <= i < |s| ==> IsDigit(s[i])
  }

  function DigitValue(c: char): nat
    requires IsDigit(c)
  {
    (c as int) - ('0' as int)
  }

  function DigitChar(d: nat): char
    requires d < 10
  {
    (('0' as int) + d) as char
  }

  function Pow10(k: nat): (r: nat)
    ensures r >= 1
  {
    if k == 0 then 1 else 10 * Pow10(k - 1)
  }

  lemma {:induction false} Pow10Monotone(i: nat, j: nat)
    requires i <= j
    ensures Pow10(i) <= Pow10(j)
    decreases j
  {
    if i < j {
      Pow10Monotone(i, j - 1);
    }
  }

  function Zeros(k: nat): (s: string)
  {
    seq(k, _ => '0')
  }

  /** The shortest decimal spelling of `n`, as Python's `str(n)` writes a
      non-negative integer. */
  function Digits(n: nat): (s: string)
    ensures |s| >= 1 && AllDigits(s)
    ensures |s| > 1 ==> s[0] != '0'
  {
    if n < 10 then [DigitChar(n)] else Digits(n / 10) + [DigitChar(n % 10)]
  }

  /** `int(s)` for a string of ASCII digits; leading zeros add nothing. */
  function ParseDecimal(s: string): (n: nat)
    requires AllDigits(s)
    ensures n < Pow10(|s|)
  {
    if s == [] then 0
    else 10 * ParseDecimal(s[..|s| - 1]) + DigitValue(s[|s| - 1])
  }

  lemma {:induction false} ParseDigits(n: nat)
    ensures ParseDecimal(Digits(n)) == n
  {
    if n >= 10 {
      var s := Digits(n);
      assert s[..|s| - 1] == Digits(n / 10);
      ParseDigits(n / 10);
    }
  }

  /** `Digits(n)` has `k` characters exactly when `n` lies in [10^(k-1), 10^k). */
  lemma {:induction false} DigitsLength(n: nat)
    ensures n < Pow10(|Digits(n)|)
    ensures |Digits(n)| > 1 ==> Pow10(|Digits(n)| - 1) <= n
  {
    if n >= 10 {
      DigitsLength(n / 10);
    }
  }

  /** Leading zeros do not change the parsed value: `int("00042") == 42`. */
  lemma {:induction false} ParseIgnoresLeadingZeros(k: nat, s: string)
    requires AllDigits(s)
    ensures AllDigits(Zeros(k) + s)
    ensures ParseDecimal(Zeros(k) + s) == ParseDecimal(s)
    decreases |s|, k
  {
    var t := Zeros(k) + s;
    assert AllDigits(t) by {
      forall i | 0 <= i < |t| ensures IsDigit(t[i]) {
        if i >= k { assert t[i] == s[i - k]; }
      }
    }
    if s == [] {
      if k > 0 {
        assert t[..|t| - 1] == Zeros(k - 1) + [];
        ParseIgnoresLeadingZeros(k - 1, []);
      }
    } else {
      assert t[..|t| - 1] == Zeros(k) + s[..|s| - 1];
      ParseIgnoresLeadingZeros(k, s[..|s| - 1]);
    }
  }

  /** `Products.display_id`, `f'{id:05}'`: the decimal id left-padded with zeros to
      five characters; longer ids are written in full. Parsing it gives the id back. */
  function DisplayId(id: nat): (s: string)
    ensures AllDigits(s) && |s| >= 5
    ensures ParseDecimal(s) == id
  {
    var d := Digits(id);
    ParseDigits(id);
    if |d| < 5 then
      ParseIgnoresLeadingZeros(5 - |d|, d);
      Zeros(5 - |d|) + d
    else d
  }

  /** The display id is exactly five characters long precisely for ids below
      100000; from 100000 on it is the plain decimal id, without padding. */
  lemma DisplayIdWidth(id: nat)
    ensures id < 100000 <==> |DisplayId(id)| == 5
    ensures id >= 100000 ==> DisplayId(id) == Digits(id)
  {
    var d := Digits(id);
    DigitsLength(id);
    assert Pow10(5) == 100000;
    if id < 100000 {
      if |d| > 5 {
        Pow10Monotone(5, |d| - 1);
      }
    } else {
      if |d| <= 5 {
        Pow10Monotone(|d|, 5);
      }
    }
  }
}

=== FILE: orders.dfy ===
/** Checkout (orders/views.py): `CreateOrderView.post` together with `create_order`,
    run inside one `transaction.atomic()` block, as a pure transition of the store. */
module Orders {
  import opened Results
  import opened Goods
  import opened Shop

  /** Why a checkout changes nothing: the user has no cart lines (the view just
      redisplays the form), or a line asks for more than the stock left when it is
      processed (`ValidationError`, naming the product and the stock it had then). */
  datatype OrderError = EmptyCart | InsufficientStock(name: string, available: int)

  // ---------------------------------------------------------------------------
  // The user's cart: `Cart.objects.filter(user=user)`

  /** The lines owned by `user`, in store order. */
  function UserLines(carts: seq<CartLine>, user: UserId): (r: seq<CartLine>)
    ensures forall l :: l in r <==> l in carts && l.user == Some(user)
  {
    if carts == [] then []
    else if carts[0].user == Some(user) then [carts[0]] + UserLines(carts[1..], user)
    else UserLines(carts[1..], user)
  }

  /** The lines the checkout keeps: every line not owned by `user`, in store order. */
  function OtherLines(carts: seq<CartLine>, user: UserId): (r: seq<CartLine>)
    ensures forall l :: l in r <==> l in carts && l.user != Some(user)
  {
    if carts == [] then []
    else if carts[0].user == Some(user) then OtherLines(carts[1..], user)
    else [carts[0]] + OtherLines(carts[1..], user)
  }

  /** The user's lines and the other lines split the cart table: every row is in
      exactly one of the two, as often as it was in the table. */
  lemma {:induction false} LinesPartition(carts: seq<CartLine>, user: UserId)
    ensures multiset(UserLines(carts, user)) + multiset(OtherLines(carts, user)) == multiset(carts)
  {
    if carts != [] {
      LinesPartition(carts[1..], user);
      assert carts == [carts[0]] + carts[1..];
    }
  }

  /** Once the user's lines are deleted the user has none left. */
  lemma {:induction false} NoUserLinesLeft(carts: seq<CartLine>, user: UserId)
    ensures UserLines(OtherLines(carts, user), user) == []
  {
    if carts != [] {
      NoUserLinesLeft(carts[1..], user);
      var o := OtherLines(carts[1..], user);
      if carts[0].user != Some(user) {
        assert ([carts[0]] + o)[1..] == o;
      }
    }
  }

  /** Dropping rows keeps the primary key distinct. */
  lemma {:induction false} OtherLinesDistinct(carts: seq<CartLine>, user: UserId)
    requires LineIdsDistinct(carts)
    ensures LineIdsDistinct(OtherLines(carts, user))
  {
    if carts != [] {
      var rest := carts[1..];
      assert LineIdsDistinct(rest) by {
        forall i, j | 0 <= i < j < |rest| ensures rest[i].id != rest[j].id {
          assert rest[i] == carts[i + 1] && rest[j] == carts[j + 1];
        }
      }
      OtherLinesDistinct(rest, user);
      var o := OtherLines(rest, user);
      if carts[0].user != Some(user) {
        var r := [carts[0]] + o;
        forall j | 0 < j < |r| ensures r[0].id != r[j].id {
          assert r[j] in rest;
          var m :| 0 <= m < |rest| && rest[m] == r[j];
          assert carts[m + 1] == r[j];
        }
        forall i, j | 0 <= i < j < |r| ensures r[i].id != r[j].id {
          if i > 0 {
            assert r[i] == o[i - 1] && r[j] == o[j - 1];
          }
        }
      }
    }
  }

  // ---------------------------------------------------------------------------
  // Quantities per product over a run of lines

  /** The total quantity that `lines` ask of product `k`. */
  function Total(lines: seq<CartLine>, k: ProductId): int
  {
    if lines == [] then 0
    else (if lines[0].product == k then lines[0].quantity else 0) + Total(lines[1..], k)
  }

  lemma {:induction false} TotalAppend(a: seq<CartLine>, b: seq<CartLine>, k: ProductId)
    ensures Total(a + b, k) == Total(a, k) + Total(b, k)
  {
    if a == [] {
      assert a + b == b;
    } else {
      assert (a + b)[0] == a[0];
      assert (a + b)[1..] == a[1..] + b;
      TotalAppend(a[1..], b, k);
    }
  }

  /** A product no line asks for has a total of zero. */
  lemma {:induction false} TotalAbsent(lines: seq<CartLine>, k: ProductId)
    requires forall i :: 0 <= i < |lines| ==> lines[i].product != k
    ensures Total(lines, k) == 0
  {
    if lines != [] {
      TotalAbsent(lines[1..], k);
    }
  }

  /** With non-negative quantities a prefix never asks for more than the whole run. */
  lemma TotalPrefix(lines: seq<CartLine>, n: nat, k: ProductId)
    requires n <= |lines|
    requires forall i :: 0 <= i < |lines| ==> lines[i].quantity >= 0
    ensures Total(lines[..n], k) <= Total(lines, k)
  {
    assert lines == lines[..n] + lines[n..];
    TotalAppend(lines[..n], lines[n..], k);
    TotalNonNegative(lines[n..], k);
  }

  lemma {:induction false} TotalNonNegative(lines: seq<CartLine>, k: ProductId)
    requires forall i :: 0 <= i < |lines| ==> lines[i].quantity >= 0
    ensures Total(lines, k) >= 0
  {
    if lines != [] {
      TotalNonNegative(lines[1..], k);
    }
  }

  // ---------------------------------------------------------------------------
  // The loop of `create_order`

  predicate ProductsKnown(lines: seq<CartLine>, products: map<ProductId, Product>)
  {
    forall i :: 0 <= i < |lines| ==> lines[i].product in products
  }

  /** The stock of product `k` that the `i`-th line sees: the stored stock less what
      the earlier lines have already taken. */
  function Available(products: map<ProductId, Product>, lines: seq<CartLine>, i: nat, k: ProductId): int
    requires i <= |lines| && k in products
  {
    products[k].quantity - Total(lines[..i], k)
  }

  /** The `i`-th line passes the check `product.quantity < quantity` against the
      stock its predecessors have left. */
  predicate Fits(products: map<ProductId, Product>, lines: seq<CartLine>, i: nat)
    requires i < |lines| && ProductsKnown(lines, products)
  {
    lines[i].quantity <= Available(products, lines, i, lines[i].product)
  }

  /** The order item written for a line: name and discounted price copied from the
      product, quantity from the line. */
  function Snapshot(products: map<ProductId, Product>, l: CartLine, order: OrderId): OrderItem
    requires l.product in products
  {
    OrderItem(order, l.product, products[l.product].name, DiscountedPrice(products[l.product]), l.quantity)
  }

  /** Decrementing a product's stock does not change the snapshot of any line. */
  lemma SnapshotsIgnoreStock(products: map<ProductId, Product>, k: ProductId, quantity: int, lines: seq<CartLine>, order: OrderId)
    requires k in products && ProductsKnown(lines, products)
    ensures var reduced := products[k := products[k].(quantity := quantity)];
      forall i :: 0 <= i < |lines| ==> Snapshot(reduced, lines[i], order) == Snapshot(products, lines[i], order)
  {
    DiscountedPriceIgnoresStock(products[k], quantity);
  }

  /** The products and the items written once every line has been processed. */
  datatype Processed = Processed(products: map<ProductId, Product>, items: seq<OrderItem>)

  /** What a completed loop has written: one snapshot per line, in order. */
  predicate ItemsWritten(products: map<ProductId, Product>, lines: seq<CartLine>, order: OrderId, items: seq<OrderItem>)
    requires ProductsKnown(lines, products)
  {
    && |items| == |lines|
    && forall i :: 0 <= i < |lines| ==> items[i] == Snapshot(products, lines[i], order)
  }

  /** What a completed loop has done to the stock: every product's stock is lowered
      by the total its lines asked for, and nothing else about it changes. */
  predicate StockTaken(products: map<ProductId, Product>, lines: seq<CartLine>, after: map<ProductId, Product>)
  {
    && after.Keys == products.Keys
    && forall k :: k in products ==>
         after[k] == products[k].(quantity := products[k].quantity - Total(lines, k))
  }

  function Reduce(products: map<ProductId, Product>, l: CartLine): map<ProductId, Product>
    requires l.product in products
  {
    products[l.product := products[l.product].(quantity := products[l.product].quantity - l.quantity)]
  }

  /** One turn of the loop for the items: the first line's snapshot followed by the
      snapshots of the rest, taken against the reduced stock, are the snapshots of
      the whole run. */
  lemma ItemsStep(products: map<ProductId, Product>, lines: seq<CartLine>, order: OrderId, rest: seq<OrderItem>)
    requires ProductsKnown(lines, products) && lines != []
    requires ProductsKnown(lines[1..], Reduce(products, lines[0]))
    requires ItemsWritten(Reduce(products, lines[0]), lines[1..], order, rest)
    ensures ItemsWritten(products, lines, order, [Snapshot(products, lines[0], order)] + rest)
  {
    var l := lines[0];
    var items := [Snapshot(products, l, order)] + rest;
    SnapshotsIgnoreStock(products, l.product, products[l.product].quantity - l.quantity, lines[1..], order);
    forall i | 1 <= i < |lines| ensures items[i] == Snapshot(products, lines[i], order) {
      assert items[i] == rest[i - 1] && lines[i] == lines[1..][i - 1];
    }
  }

  /** One turn of the loop for the stock. */
  lemma StockStep(products: map<ProductId, Product>, lines: seq<CartLine>, after: map<ProductId, Product>)
    requires ProductsKnown(lines, products) && lines != []
    requires StockTaken(Reduce(products, lines[0]), lines[1..], after)
    ensures StockTaken(products, lines, after)
  {
  }

  /** The `for cart_item in cart_items` loop: each line, in order, is checked against
      the current stock; if it fits, an item is written and the stock decremented,
      otherwise the loop raises with the product's name and current stock. */
  function ProcessLines(products: map<ProductId, Product>, lines: seq<CartLine>, order: OrderId): (r: Result<Processed, OrderError>)
    requires ProductsKnown(lines, products)
    ensures r.Failure? ==> r.error.InsufficientStock?
    ensures r.Success? ==> ItemsWritten(products, lines, order, r.value.items)
    ensures r.Success? ==> StockTaken(products, lines, r.value.products)
    decreases |lines|
  {
    if lines == [] then Success(Processed(products, []))
    else
      var l := lines[0];
      var p := products[l.product];
      if p.quantity < l.quantity then Failure(InsufficientStock(p.name, p.quantity))
      else
        match ProcessLines(Reduce(products, l), lines[1..], order)
        case Failure(e) => Failure(e)
        case Success(rest) =>
          ItemsStep(products, lines, order, rest.items);
          StockStep(products, lines, rest.products);
          Success(Processed(rest.products, [Snapshot(products, l, order)] + rest.items))
  }

  /** Processing the first line leaves the rest to be checked against the reduced
      stock: the `j`-th of the remaining lines fits there exactly when it fits as
      line `j + 1` of the whole run. */
  lemma FitsAfterFirst(products: map<ProductId, Product>, lines: seq<CartLine>, j: nat)
    requires ProductsKnown(lines, products) && j + 1 < |lines|
    ensures var reduced := Reduce(products, lines[0]);
      && ProductsKnown(lines[1..], reduced)
      && (Fits(reduced, lines[1..], j) <==> Fits(products, lines, j + 1))
      && Available(reduced, lines[1..], j, lines[j + 1].product) == Available(products, lines, j + 1, lines[j + 1].product)
  {
    assert lines[..j + 1][1..] == lines[1..][..j];
  }

  /** The loop completes exactly when every line fits the stock its predecessors have
      left; when it does not, it stops at the first line that does not fit and
      reports that line's product name and the stock it saw. */
  lemma {:induction false} ProcessLinesOutcome(products: map<ProductId, Product>, lines: seq<CartLine>, order: OrderId)
    requires ProductsKnown(lines, products)
    ensures ProcessLines(products, lines, order).Success? <==> forall i :: 0 <= i < |lines| ==> Fits(products, lines, i)
    ensures ProcessLines(products, lines, order).Failure? ==>
      exists i :: 0 <= i < |lines| && !Fits(products, lines, i)
        && (forall j :: 0 <= j < i ==> Fits(products, lines, j))
        && ProcessLines(products, lines, order).error
           == InsufficientStock(products[lines[i].product].name, Available(products, lines, i, lines[i].product))
    decreases |lines|
  {
    if lines != [] {
      var l := lines[0];
      var p := products[l.product];
      assert lines[..0] == [];
      assert Fits(products, lines, 0) <==> p.quantity >= l.quantity;
      if p.quantity >= l.quantity {
        var reduced := Reduce(products, l);
        var rest := lines[1..];
        forall j | 0 <= j < |rest|
          ensures ProductsKnown(rest, reduced)
          ensures Fits(reduced, rest, j) <==> Fits(products, lines, j + 1)
        {
          FitsAfterFirst(products, lines, j);
        }
        ProcessLinesOutcome(reduced, rest, order);
        if ProcessLines(products, lines, order).Failure? {
          var j :| 0 <= j < |rest| && !Fits(reduced, rest, j)
            && (forall m :: 0 <= m < j ==> Fits(reduced, rest, m))
            && ProcessLines(reduced, rest, order).error
               == InsufficientStock(reduced[rest[j].product].name, Available(reduced, rest, j, rest[j].product));
          FitsAfterFirst(products, lines, j);
          assert forall m :: 0 <= m < j + 1 ==> Fits(products, lines, m) by {
            forall m | 0 <= m < j + 1 ensures Fits(products, lines, m) {
              if m > 0 { assert Fits(reduced, rest, m - 1); }
            }
          }
          assert !Fits(products, lines, j + 1);
        } else {
          assert forall i :: 0 <= i < |lines| ==> Fits(products, lines, i) by {
            forall i | 0 <= i < |lines| ensures Fits(products, lines, i) {
              if i > 0 { assert Fits(reduced, rest, i - 1); }
            }
          }
        }
      } else {
        assert !Fits(products, lines, 0);
      }
    }
  }

  /** When every line fits, no product a line asks for is asked for more than its
      stored stock; `n` counts the lines considered so far. */
  lemma {:induction false} FitsCoverPrefix(products: map<ProductId, Product>, lines: seq<CartLine>, n: nat)
    requires ProductsKnown(lines, products) && n <= |lines|
    requires forall i :: 0 <= i < |lines| ==> Fits(products, lines, i)
    ensures forall i :: 0 <= i < n ==> Total(lines[..n], lines[i].product) <= products[lines[i].product].quantity
  {
    if n > 0 {
      FitsCoverPrefix(products, lines, n - 1);
      assert lines[..n] == lines[..n - 1] + [lines[n - 1]];
      forall i | 0 <= i < n
        ensures Total(lines[..n], lines[i].product) <= products[lines[i].product].quantity
      {
        var k := lines[i].product;
        TotalAppend(lines[..n - 1], [lines[n - 1]], k);
        assert Total([lines[n - 1]], k) == if lines[n - 1].product == k then lines[n - 1].quantity else 0;
        if lines[n - 1].product != k {
          assert i < n - 1;
        } else {
          assert Fits(products, lines, n - 1);
        }
      }
    }
  }

  /** The reference condition for a run of lines with non-negative quantities: the
      loop completes exactly when, for each product, the quantities of all lines
      asking for it add up to no more than its stored stock. The order of the lines
      does not matter then. */
  lemma StockCoversLines(products: map<ProductId, Product>, lines: seq<CartLine>, order: OrderId)
    requires ProductsKnown(lines, products)
    requires forall i :: 0 <= i < |lines| ==> lines[i].quantity >= 0
    ensures ProcessLines(products, lines, order).Success? <==>
      forall i :: 0 <= i < |lines| ==> Total(lines, lines[i].product) <= products[lines[i].product].quantity
  {
    ProcessLinesOutcome(products, lines, order);
    if forall i :: 0 <= i < |lines| ==> Fits(products, lines, i) {
      FitsCoverPrefix(products, lines, |lines|);
      assert lines[..|lines|] == lines;
    }
    if forall i :: 0 <= i < |lines| ==> Total(lines, lines[i].product) <= products[lines[i].product].quantity {
      CoveredLinesFit(products, lines);
    }
  }

  /** With non-negative quantities, a run whose per-product totals stay within the
      stock passes every per-line check. */
  lemma CoveredLinesFit(products: map<ProductId, Product>, lines: seq<CartLine>)
    requires ProductsKnown(lines, products)
    requires forall i :: 0 <= i < |lines| ==> lines[i].quantity >= 0
    requires forall i :: 0 <= i < |lines| ==> Total(lines, lines[i].product) <= products[lines[i].product].quantity
    ensures forall i :: 0 <= i < |lines| ==> Fits(products, lines, i)
  {
    forall i | 0 <= i < |lines| ensures Fits(products, lines, i) {
      var k := lines[i].product;
      assert lines[..i + 1] == lines[..i] + [lines[i]];
      TotalAppend(lines[..i], [lines[i]], k);
      TotalPrefix(lines, i + 1, k);
    }
  }

  /** Two lines for the same product are checked against one stock: they go through
      together only if their quantities add up to no more than it, whatever the
      quantities; when neither is negative, that condition is also enough. */
  lemma SameProductLinesShareStock(products: map<ProductId, Product>, a: CartLine, b: CartLine, order: OrderId)
    requires a.product == b.product && a.product in products
    ensures ProcessLines(products, [a, b], order).Success? ==>
      a.quantity + b.quantity <= products[a.product].quantity
    ensures a.quantity >= 0 && b.quantity >= 0 ==>
      (ProcessLines(products, [a, b], order).Success? <==>
       a.quantity + b.quantity <= products[a.product].quantity)
  {
    var lines := [a, b];
    assert lines[..1] == [a] && [a][1..] == [];
    assert Total(lines[..1], a.product) == a.quantity;
    ProcessLinesOutcome(products, lines, order);
    if ProcessLines(products, lines, order).Success? {
      assert Fits(products, lines, 1);
    }
    if a.quantity >= 0 && b.quantity >= 0 {
      StockCoversLines(products, lines, order);
      assert lines[1..] == [b] && [b][1..] == [];
      assert Total(lines, a.product) == a.quantity + b.quantity;
    }
  }

  // ---------------------------------------------------------------------------
  // Placing an order

  /** The store after a checkout, and the id of the order it created. */
  datatype Placed = Placed(store: Store, order: OrderId)

  /** `CreateOrderView.post` with a valid form. With no cart lines nothing happens.
      Otherwise the order is created, then each line is checked, written as an item
      and taken from stock, and finally the user's cart lines are deleted; the first
      shortfall aborts the transaction, so a failure leaves the store as it was. */
  function PlaceOrder(s: Store, user: UserId, contact: Contact): (r: Result<Placed, OrderError>)
    requires LinesReferenceProducts(s.carts, s.products)
    ensures r == Failure(EmptyCart) <==> UserLines(s.carts, user) == []
    ensures r.Failure? ==> r.error.EmptyCart? || r.error.InsufficientStock?
    ensures r.Success? ==>
      var lines := UserLines(s.carts, user);
      var t := r.value.store;
      && r.value.order == s.nextOrderId
      && t.orders == s.orders + [Order(s.nextOrderId, user, contact)]
      && t.nextOrderId == s.nextOrderId + 1
      && |t.items| == |s.items| + |lines|
      && t.items[..|s.items|] == s.items
      && (forall i :: 0 <= i < |lines| ==> t.items[|s.items| + i] == Snapshot(s.products, lines[i], s.nextOrderId))
      && t.products.Keys == s.products.Keys
      && (forall k :: k in s.products ==>
            t.products[k] == s.products[k].(quantity := s.products[k].quantity - Total(lines, k)))
      && t.carts == OtherLines(s.carts, user)
      && t.nextLineId == s.nextLineId
  {
    var lines := UserLines(s.carts, user);
    if lines == [] then Failure(EmptyCart)
    else
      assert ProductsKnown(lines, s.products) by {
        forall i | 0 <= i < |lines| ensures lines[i].product in s.products {
          assert lines[i] in s.carts;
        }
      }
      var order := Order(s.nextOrderId, user, contact);
      match ProcessLines(s.products, lines, order.id)
      case Failure(e) => Failure(e)
      case Success(done) =>
        Success(Placed(
          s.(products := done.products,
             carts := OtherLines(s.carts, user),
             orders := s.orders + [order],
             items := s.items + done.items,
             nextOrderId := s.nextOrderId + 1),
          order.id))
  }

  /** The cart lines of the user, as the checkout reads them. */
  lemma UserLinesKnown(s: Store, user: UserId)
    requires LinesReferenceProducts(s.carts, s.products)
    ensures ProductsKnown(UserLines(s.carts, user), s.products)
  {
    var lines := UserLines(s.carts, user);
    forall i | 0 <= i < |lines| ensures lines[i].product in s.products {
      assert lines[i] in s.carts;
    }
  }

  /** All or nothing: a checkout over a non-empty cart succeeds exactly when every
      line fits the stock its predecessors have left; otherwise it fails on the
      first line that does not, naming its product and the stock it saw, and the
      store is left as it was (a failure carries no store). */
  lemma PlaceOrderOutcome(s: Store, user: UserId, contact: Contact)
    requires LinesReferenceProducts(s.carts, s.products)
    ensures var lines := UserLines(s.carts, user);
      ProductsKnown(lines, s.products)
      && (PlaceOrder(s, user, contact).Success? <==>
            lines != [] && forall i :: 0 <= i < |lines| ==> Fits(s.products, lines, i))
    ensures var lines := UserLines(s.carts, user);
      var r := PlaceOrder(s, user, contact);
      ProductsKnown(lines, s.products)
      && (r.Failure? && lines != [] ==>
            exists i :: 0 <= i < |lines| && !Fits(s.products, lines, i)
              && (forall j :: 0 <= j < i ==> Fits(s.products, lines, j))
              && r.error == InsufficientStock(s.products[lines[i].product].name,
                                              Available(s.products, lines, i, lines[i].product)))
  {
    UserLinesKnown(s, user);
    ProcessLinesOutcome(s.products, UserLines(s.carts, user), s.nextOrderId);
  }

  /** For a cart whose quantities are non-negative, the checkout succeeds exactly when
      the cart is not empty and, for every product in it, the quantities of the
      user's lines for that product add up to no more than its stock. */
  lemma PlaceOrderSucceedsIffStockCovers(s: Store, user: UserId, contact: Contact)
    requires LinesReferenceProducts(s.carts, s.products)
    requires forall l :: l in s.carts && l.user == Some(user) ==> l.quantity >= 0
    ensures var lines := UserLines(s.carts, user);
      PlaceOrder(s, user, contact).Success? <==>
        lines != [] && forall i :: 0 <= i < |lines| ==>
          lines[i].product in s.products && Total(lines, lines[i].product) <= s.products[lines[i].product].quantity
  {
    var lines := UserLines(s.carts, user);
    UserLinesKnown(s, user);
    UserLinesNonNegative(s.carts, user);
    StockCoversLines(s.products, lines, s.nextOrderId);
  }

  lemma UserLinesNonNegative(carts: seq<CartLine>, user: UserId)
    requires forall l :: l in carts && l.user == Some(user) ==> l.quantity >= 0
    ensures var lines := UserLines(carts, user);
      forall i :: 0 <= i < |lines| ==> lines[i].quantity >= 0
  {
    var lines := UserLines(carts, user);
    forall i | 0 <= i < |lines| ensures lines[i].quantity >= 0 {
      assert lines[i] in carts;
    }
  }

  /** The loop never drives a stock below zero: each product's final stock is its
      stored stock less its total, and the per-line checks keep that total within
      the stock. */
  lemma ProcessLinesKeepsStockNonNegative(products: map<ProductId, Product>, lines: seq<CartLine>, order: OrderId)
    requires ProductsKnown(lines, products) && StockNonNegative(products)
    requires ProcessLines(products, lines, order).Success?
    ensures StockNonNegative(ProcessLines(products, lines, order).value.products)
  {
    var after := ProcessLines(products, lines, order).value.products;
    ProcessLinesOutcome(products, lines, order);
    FitsCoverPrefix(products, lines, |lines|);
    assert lines[..|lines|] == lines;
    forall k | k in after ensures after[k].quantity >= 0 {
      if exists i :: 0 <= i < |lines| && lines[i].product == k {
        var i :| 0 <= i < |lines| && lines[i].product == k;
      } else {
        TotalAbsent(lines, k);
      }
    }
  }

  /** Stock never becomes negative: a successful checkout lowers each product's stock
      by what the user's lines ask of it, which the per-line checks keep within the
      stock. */
  lemma PlaceOrderKeepsStockNonNegative(s: Store, user: UserId, contact: Contact)
    requires LinesReferenceProducts(s.carts, s.products) && StockNonNegative(s.products)
    ensures PlaceOrder(s, user, contact).Success? ==>
      StockNonNegative(PlaceOrder(s, user, contact).value.store.products)
  {
    UserLinesKnown(s, user);
    if PlaceOrder(s, user, contact).Success? {
      ProcessLinesKeepsStockNonNegative(s.products, UserLines(s.carts, user), s.nextOrderId);
    }
  }

  /** A successful checkout keeps the database's integrity: the remaining cart lines
      keep distinct ids that resolve to products, the new order takes a fresh id, and
      its items point at it. */
  lemma PlaceOrderPreservesValid(s: Store, user: UserId, contact: Contact)
    requires Valid(s)
    ensures PlaceOrder(s, user, contact).Success? ==> Valid(PlaceOrder(s, user, contact).value.store)
  {
    if PlaceOrder(s, user, contact).Success? {
      var t := PlaceOrder(s, user, contact).value.store;
      PlaceOrderKeepsStockNonNegative(s, user, contact);
      OtherLinesDistinct(s.carts, user);
      forall i | 0 <= i < |t.carts|
        ensures t.carts[i].id < t.nextLineId && t.carts[i].product in t.products
      {
        assert t.carts[i] in s.carts;
      }
      forall i | 0 <= i < |t.items| ensures t.items[i].order < t.nextOrderId {
        if i >= |s.items| {
          assert t.items[i].order == s.nextOrderId;
        } else {
          assert t.items[i] == s.items[i];
        }
      }
    }
  }

  /** After a successful checkout the user has no cart lines left, and every line of
      other users or sessions is still there. */
  lemma PlaceOrderClearsCart(s: Store, user: UserId, contact: Contact)
    requires LinesReferenceProducts(s.carts, s.products)
    ensures PlaceOrder(s, user, contact).Success? ==>
      var t := PlaceOrder(s, user, contact).value.store;
      && UserLines(t.carts, user) == []
      && multiset(t.carts) + multiset(UserLines(s.carts, user)) == multiset(s.carts)
  {
    LinesPartition(s.carts, user);
    NoUserLinesLeft(s.carts, user);
  }

  /** A product none of the user's lines asks for keeps its stock. */
  lemma PlaceOrderLeavesOtherStock(s: Store, user: UserId, contact: Contact, k: ProductId)
    requires LinesReferenceProducts(s.carts, s.products)
    requires k in s.products
    requires forall l :: l in s.carts && l.user == Some(user) ==> l.product != k
    ensures PlaceOrder(s, user, contact).Success? ==>
      PlaceOrder(s, user, contact).value.store.products[k] == s.products[k]
  {
    var lines := UserLines(s.carts, user);
    forall i | 0 <= i < |lines| ensures lines[i].product != k {
      assert lines[i] in s.carts;
    }
    TotalAbsent(lines, k);
  }
}

=== FILE: results.dfy ===
/** The optional value and the success-or-error result shared by every module of
    the shop model. */
module Results {

  /** A value that may be absent: a nullable database column or an optional request field. */
  datatype Option<+T> = None | Some(value: T)

  /** The outcome of an operation that either yields a value or raises one of the
      errors the views let escape (a missing row, a failed stock check). A failure
      carries no store: the operation leaves the store exactly as it found it. */
  datatype Result<+T, +E> = Success(value: T) | Failure(error: E)
}

=== FILE: search.dfy ===
/** The routing decision of `q_search` (goods/utils.py): a short all-digit query is
    an id lookup, anything else goes to the full-text search, which stays opaque. */
module Search {
  import opened Goods

  /** Where a search query is sent: a lookup of one product id, or the full-text
      search (ranking and highlighting are not modelled) with the query text. */
  datatype Route = ById(id: ProductId) | FullText(query: string)

  /** `query.isdigit() and len(query) <= 5` selects `filter(id=int(query))`.
      `isdigit` is false on the empty string. */
  function RouteQuery(q: string): (r: Route)
    ensures r.ById? <==> 0 < |q| <= 5 && AllDigits(q)
    ensures r.ById? ==> r.id < 100000
    ensures r.ById? ==> AllDigits(q) && r.id == ParseDecimal(q)
    ensures r.FullText? ==> r.query == q
  {
    if 0 < |q| <= 5 && AllDigits(q) then
      Pow10Monotone(|q|, 5);
      ById(ParseDecimal(q))
    else FullText(q)
  }

  /** An all-digit query of six or more characters is not an id lookup. */
  lemma LongNumberIsFullText(q: string)
    requires AllDigits(q) && |q| >= 6
    ensures RouteQuery(q) == FullText(q)
  {
  }

  /** The empty query, and any query with a character that is not an ASCII digit,
      go to the full-text search. */
  lemma NonNumericIsFullText(q: string)
    requires q == [] || exists i :: 0 <= i < |q| && !IsDigit(q[i])
    ensures RouteQuery(q) == FullText(q)
  {
  }

  /** Leading zeros are ignored by the id lookup: padding a short number with zeros
      (up to five characters in all) looks up the same id. */
  lemma LeadingZerosIgnored(k: nat, s: string)
    requires AllDigits(s) && 0 < k + |s| <= 5
    ensures RouteQuery(Zeros(k) + s) == ById(ParseDecimal(s))
  {
    ParseIgnoresLeadingZeros(k, s);
  }

  /** The query "00042" looks up product 42. */
  lemma LeadingZerosExample()
    ensures RouteQuery("00042") == ById(42)
  {
    assert "00042" == Zeros(3) + "42";
    LeadingZerosIgnored(3, "42");
  }

  /** Searching for a product's display id finds exactly that product whenever the
      display id is the five-character padded form, i.e. for ids below 100000;
      larger ids are sent to the full-text search. */
  lemma DisplayIdRoundTrip(id: ProductId)
    ensures id < 100000 <==> RouteQuery(DisplayId(id)) == ById(id)
    ensures id >= 100000 ==> RouteQuery(DisplayId(id)) == FullText(DisplayId(id))
  {
    DisplayIdWidth(id);
  }
}

=== FILE: shop.dfy ===
/** The store the cart, login and checkout views work on: the rows of the product,
    cart, order and order-item tables, and the integrity the database keeps. */
module Shop {
  import opened Results
  import opened Goods

  type UserId = nat
  type SessionKey = string
  type LineId = nat
  type OrderId = nat

  /** One row of the cart table. A signed-in add sets `user` and leaves the session
      key empty; an anonymous add sets the session key and leaves `user` empty; the
      re-key at login sets `user` and keeps the session key, so both may be set. */
  datatype CartLine = CartLine(
    id: LineId,
    user: Option<UserId>,
    sessionKey: Option<SessionKey>,
    product: ProductId,
    quantity: int)

  /** The contact details of a checkout, as the order form has validated them. */
  datatype Contact = Contact(
    phone: string,
    requiresDelivery: bool,
    deliveryAddress: string,
    paymentOnGet: bool)

  /** A placed order, owned by the user who placed it. */
  datatype Order = Order(id: OrderId, user: UserId, contact: Contact)

  /** A frozen line of an order: the product's name and discounted unit price are
      copied at purchase time, so later edits of the product do not reach it. */
  datatype OrderItem = OrderItem(
    order: OrderId,
    product: ProductId,
    name: string,
    price: int,
    quantity: int)

  /** The database. `carts` is in the order the cart table yields its rows; the two
      counters stand for the primary-key sequences of the cart and order tables. */
  datatype Store = Store(
    products: map<ProductId, Product>,
    carts: seq<CartLine>,
    orders: seq<Order>,
    items: seq<OrderItem>,
    nextLineId: LineId,
    nextOrderId: OrderId)

  /** Cart line ids are a primary key. */
  predicate LineIdsDistinct(carts: seq<CartLine>)
  {
    forall i, j :: 0 <= i < j < |carts| ==> carts[i].id != carts[j].id
  }

  /** Every cart line id was handed out by the sequence. */
  predicate LineIdsBelow(carts: seq<CartLine>, next: LineId)
  {
    forall i :: 0 <= i < |carts| ==> carts[i].id < next
  }

  /** The product foreign key of every cart line resolves. */
  predicate LinesReferenceProducts(carts: seq<CartLine>, products: map<ProductId, Product>)
  {
    forall i :: 0 <= i < |carts| ==> carts[i].product in products
  }

  /** The product quantity column is a PositiveIntegerField: stock is never negative. */
  predicate StockNonNegative(products: map<ProductId, Product>)
  {
    forall k :: k in products ==> products[k].quantity >= 0
  }

  /** Order ids are a primary key handed out by the sequence, and every order item
      belongs to an order. */
  predicate OrdersConsistent(s: Store)
  {
    && (forall i :: 0 <= i < |s.orders| ==> s.orders[i].id < s.nextOrderId)
    && (forall i, j :: 0 <= i < j < |s.orders| ==> s.orders[i].id != s.orders[j].id)
    && (forall i :: 0 <= i < |s.items| ==> s.items[i].order < s.nextOrderId)
  }

  /** The integrity the database maintains between requests. */
  predicate Valid(s: Store)
  {
    && LineIdsDistinct(s.carts)
    && LineIdsBelow(s.carts, s.nextLineId)
    && LinesReferenceProducts(s.carts, s.products)
    && StockNonNegative(s.products)
    && OrdersConsistent(s)
  }
}

=== FILE: users.dfy ===
/** The cart re-key that `login` and `registration` perform (users/views.py): the
    lines of the anonymous session are handed to the user who has just signed in. */
module Users {
  import opened Results
  import opened Shop
  import Carts

  /** `Cart.objects.filter(session_key=key).update(user=user)`: every line carrying
      the session key gets the user; nothing is created, deleted or merged. */
  function ReKey(carts: seq<CartLine>, key: SessionKey, user: UserId): (r: seq<CartLine>)
    ensures |r| == |carts|
    ensures forall i :: 0 <= i < |carts| ==>
      && r[i].id == carts[i].id
      && r[i].sessionKey == carts[i].sessionKey
      && r[i].product == carts[i].product
      && r[i].quantity == carts[i].quantity
      && r[i].user == (if carts[i].sessionKey == Some(key) then Some(user) else carts[i].user)
  {
    if carts == [] then []
    else
      var l := carts[0];
      var first := if l.sessionKey == Some(key) then l.(user := Some(user)) else l;
      [first] + ReKey(carts[1..], key, user)
  }

  /** Python truthiness of the session key read before login: absent or empty
      keys do not trigger the re-key. */
  predicate HasSessionKey(key: Option<SessionKey>)
  {
    key.Some? && key.value != ""
  }

  /** What a sign-in that hands the session cart to `user` does to the store: with a
      truthy pre-login key, exactly the lines carrying that key get the user, in
      place; with an absent or empty key every line stays as it was. Lines are
      neither added, dropped nor merged, and no other table changes. */
  predicate SessionCartHandedTo(s: Store, r: Store, user: UserId, preLoginKey: Option<SessionKey>)
  {
    && r.products == s.products
    && r.orders == s.orders
    && r.items == s.items
    && r.nextLineId == s.nextLineId
    && r.nextOrderId == s.nextOrderId
    && |r.carts| == |s.carts|
    && forall i :: 0 <= i < |s.carts| ==>
        r.carts[i] == (if HasSessionKey(preLoginKey) && s.carts[i].sessionKey == preLoginKey
                       then s.carts[i].(user := Some(user)) else s.carts[i])
  }

  /** The `if session_key:` branch shared by login and registration, applied with
      the key read before `auth.login`, which may rotate it. */
  function MergeSessionCart(s: Store, user: UserId, preLoginKey: Option<SessionKey>): (r: Store)
    ensures SessionCartHandedTo(s, r, user, preLoginKey)
  {
    if HasSessionKey(preLoginKey) then s.(carts := ReKey(s.carts, preLoginKey.value, user)) else s
  }

  /** `login`: `authenticated` is what `auth.authenticate` returned (absent when the
      form or the credentials are rejected). Only a successful sign-in with a
      non-empty pre-login session key touches the cart. */
  function Login(s: Store, authenticated: Option<UserId>, preLoginKey: Option<SessionKey>): (r: Store)
    ensures authenticated.None? ==> r == s
    ensures authenticated.Some? ==> SessionCartHandedTo(s, r, authenticated.value, preLoginKey)
  {
    match authenticated
    case None => s
    case Some(user) => MergeSessionCart(s, user, preLoginKey)
  }

  /** `registration`: once the form has created `newUser`, the same re-key is applied
      to the new account. */
  function Register(s: Store, newUser: UserId, preLoginKey: Option<SessionKey>): (r: Store)
    ensures SessionCartHandedTo(s, r, newUser, preLoginKey)
  {
    MergeSessionCart(s, newUser, preLoginKey)
  }

  /** Re-keying twice with the same key and user is the same as re-keying once. */
  lemma ReKeyIdempotent(carts: seq<CartLine>, key: SessionKey, user: UserId)
    ensures ReKey(ReKey(carts, key, user), key, user) == ReKey(carts, key, user)
  {
    var once := ReKey(carts, key, user);
    var twice := ReKey(once, key, user);
    assert forall i :: 0 <= i < |carts| ==> twice[i] == once[i];
  }

  /** After a sign-in that re-keys, the user's cart is exactly the lines the user
      already owned plus the lines of the pre-login session. */
  lemma LoginUserCart(s: Store, user: UserId, key: SessionKey)
    requires key != ""
    ensures var c := Login(s, Some(user), Some(key)).carts;
      forall i :: 0 <= i < |s.carts| ==>
        (c[i].user == Some(user) <==> s.carts[i].user == Some(user) || s.carts[i].sessionKey == Some(key))
  {
  }

  /** The re-key keeps the database's integrity. */
  lemma LoginPreservesValid(s: Store, authenticated: Option<UserId>, preLoginKey: Option<SessionKey>)
    requires Valid(s)
    ensures Valid(Login(s, authenticated, preLoginKey))
  {
  }

  /** No reconciliation: if the user already had a line for a product and the session
      cart had another line for it, the user owns two lines for that product after
      signing in, and a later add of that product by the user is refused because
      `get_or_create` then finds more than one row. */
  lemma LoginLeavesDuplicateLines(s: Store, user: UserId, key: SessionKey, i: nat, j: nat)
    requires key != ""
    requires i < |s.carts| && j < |s.carts| && i != j
    requires s.carts[i].user == Some(user)
    requires s.carts[j].sessionKey == Some(key)
    requires s.carts[i].product == s.carts[j].product
    requires s.carts[i].product in s.products
    ensures var s1 := Login(s, Some(user), Some(key));
      && s1.carts[i].user == Some(user) && s1.carts[j].user == Some(user)
      && s1.carts[i].product == s1.carts[j].product
      && Carts.Add(s1, Carts.SignedIn(user), s.carts[i].product, 1) == Failure(Carts.MultipleLinesMatch)
  {
    var s1 := Login(s, Some(user), Some(key));
    var p := s.carts[i].product;
    assert Carts.Matches(s1.carts[i], Carts.SignedIn(user), p);
    assert Carts.Matches(s1.carts[j], Carts.SignedIn(user), p);
    assert Carts.TwoLinesMatch(s1.carts, Carts.SignedIn(user), p);
  }
}
